=== FILE: README.md ===
# YouTube downloader views: a Dafny model

This project models the logic written by hand in `downloader/views.py`, a small Django app that
shows a YouTube video's details and serves one of its streams as an MP4 download. The model
covers these parts:

- `sanitize_youtube_url`: the URL normaliser. It tries four regular-expression shapes in order
  and rewrites the first match to `https://www.youtube.com/watch?v=<id>`.
- `format_duration`: Python's `str(timedelta(seconds=n))`.
- `get_yt_object`: retries the remote fetch with exponential backoff.
- The view count's `"{:,}"` thousands grouping.
- The download filename built from the video title.
- The two request handlers, `home` and `download_video`: their empty-URL guards, the quality
  dispatch over the stream list, and the outcome each one produces.

The operations are pure functions over `string`s and sequences. The exceptions are methods: the retry loop,
its three scenarios and the two handlers. Among the methods, only the retry loop has a loop, and its invariants carry
its attempt and sleep bookkeeping.

The modules are:

- `Outcomes`: `Option`, `Result`, and the kinds of failure that stop a handler.
- `Text`: Python's whitespace, `strip`/`rstrip`/`lstrip`, and a first-index search.
- `Decimal`: `str(n)` and `%02d` for naturals, the value of a digit string, and the `"{:,}"`
  grouping with its inverse.
- `UrlNormalizer`: `re.search` of each pattern, written out as a scan over start positions and
  over the optional-prefix fillings in backtracking order. There is also the simpler reference
  characterisation, "the leftmost occurrence of the shape's literal followed by 11 id
  characters", and the proofs that the two agree.
- `Duration`: `str(timedelta)` over naturals, and a parser that reads the text back.
- `Retry`: the retry loop. The remote service is an oracle that says which attempts succeed.
- `Streams`: `get_highest_resolution`, `get_lowest_resolution` and `get_by_resolution` over an
  abstract list of streams.
- `DownloadName`: the safe-title filter and the filename.
- `Views`: the two handlers. Each one reports whether it reached the normaliser and how many
  fetch attempts it made, so that the guards can be stated.

## Model

| member | source | states |
|---|---|---|
| `UrlNormalizer.Normalize` | downloader/views.py:16-30 | Success is always a canonical URL: the watch prefix followed by exactly 11 characters from `[A-Za-z0-9_-]`. Failure is always the invalid-format error. |
| `UrlNormalizer.NormalizeWith` | downloader/views.py:25-30 | Trying the shapes in order gives a canonical URL or the invalid-format error, whatever the list of shapes. |
| `UrlNormalizer.MatchAt` | downloader/views.py:19-22 | One start position of a pattern: the optional prefixes are tried in backtracking order, and a match captures the 11 id characters after the prefixed literal. No match means no prefix filling fits there. |
| `UrlNormalizer.Search` | downloader/views.py:26 | `re.search` is unanchored. A match starts at or after the given position, and its group is a valid id. |
| `UrlNormalizer.FirstOccurrence` | downloader/views.py:19-22 | The reference search: the first position where the literal followed by 11 id characters occurs, with no such occurrence before it, or none at all. |
| `UrlNormalizer.IdAt` | downloader/views.py:19-22 | The 11 captured characters form a valid id. |
| `UrlNormalizer.SearchFindsLeftmostId` | downloader/views.py:18-27 | For every shape literal starting with `y`, the group `re.search` captures equals the id after the leftmost occurrence of the literal followed by 11 id characters. This holds because the optional prefixes cannot contain a `y`. |
| `UrlNormalizer.PrefixedMatchIsLeftmost` | downloader/views.py:19-22 | When a prefixed match starts at `i`, the bare literal first occurs right after the prefix, and the captured id is the same. |
| `UrlNormalizer.PrefixedOccurrence` | downloader/views.py:19-22 | A prefixed occurrence is the prefix, then an occurrence of the bare literal with the same id. |
| `UrlNormalizer.PrefixesHaveNoY` | downloader/views.py:19-22 | None of the optional prefix fillings (`https://`, `www.`, `m.` and their combinations) contains a `y`. |
| `UrlNormalizer.NormalizeWithIsLeftmost` | downloader/views.py:25-30 | Trying regex shapes in order equals trying the reference characterisation of each shape in order, for every list of `y`-initial shapes. |
| `UrlNormalizer.NormalizeIsLeftmost` | downloader/views.py:16-30 | The normaliser equals its reference definition: the first shape in list order with an occurrence yields the canonical URL of that occurrence's leftmost id. |
| `UrlNormalizer.LeftmostShapeFails` | downloader/views.py:25-30 | The reference definition fails if and only if no shape in the list has its literal followed by 11 id characters anywhere. |
| `UrlNormalizer.RejectsExactlyWhenNoShapeOccurs` | downloader/views.py:19-30 | The normaliser raises if and only if none of the four shapes occurs with 11 id characters after it. |
| `UrlNormalizer.FirstShapeWins` | downloader/views.py:25-28 | When shape `k` occurs and no earlier shape does, the result is the canonical URL of shape `k`'s leftmost id. Later shapes never matter. |
| `UrlNormalizer.ShortLinkWins` | downloader/views.py:18-28 | An input containing a `youtu.be/` occurrence yields its `youtu.be` id, even when a `watch?v=` occurrence comes first. |
| `UrlNormalizer.LongIdTruncated` | downloader/views.py:19-28 | An id run longer than 11 characters is accepted and cut to its first 11, so the length test on line 27 never rejects. |
| `UrlNormalizer.AllShapesAgree` | downloader/views.py:18-28 | Every prefix filling followed by any of the four shapes and an id normalises to the canonical URL of that id. |
| `UrlNormalizer.CanonicalShape` | downloader/views.py:19-28 | The canonical form never contains the `youtu.be/` shape, and its `watch?v=` shape captures its own id. |
| `UrlNormalizer.CanonicalHasNoShortLink` | downloader/views.py:19-28 | The canonical form of an id has no occurrence of the `youtu.be/` shape. |
| `UrlNormalizer.CanonicalIsFixedPoint` | downloader/views.py:28 | Normalising a canonical URL returns it unchanged. |
| `UrlNormalizer.NormalizeIdempotent` | downloader/views.py:16-30 | Normalising the normaliser's own output gives the same result. |
| `UrlNormalizer.CanonicalIdRoundTrip` | downloader/views.py:28 | The id read back from the canonical URL of an id is that id. |
| `UrlNormalizer.IdCanonicalRoundTrip` | downloader/views.py:28 | Rebuilding a canonical URL from its id gives the URL back. |
| `UrlNormalizer.ShapesHaveOneY` | downloader/views.py:19-22 | Each shape literal has a `y` only in its first character. |
| `UrlNormalizer.LiteralsDisagree` | downloader/views.py:19-22 | Any two different shape literals differ at a fixed position within both. |
| `UrlNormalizer.SeparatorOutsideIdClass` | downloader/views.py:19-22 | Each shape literal has a character outside the id class `[A-Za-z0-9_-]`. |
| `UrlNormalizer.OneYAfterPrefix` | downloader/views.py:19-22 | In a `y`-free prefix followed by a shape literal, the only `y` is the literal's first character. |
| `UrlNormalizer.EarlierShapeAbsent` | downloader/views.py:19-22 | A prefix, then shape `k`, then an id contains no occurrence of any earlier shape. |
| `UrlNormalizer.ShapeOccursAfterPrefix` | downloader/views.py:19-22 | A prefix, then shape `k`, then an id has shape `k` right after the prefix, with that id as its leftmost capture. |
| `UrlNormalizer.OnlyCandidate` | downloader/views.py:19-22 | A literal with one `y` and a separator outside the id class can occur in a one-`y` text followed by an id only at that `y`. |
| `UrlNormalizer.OnlyOccurrence` | downloader/views.py:19-22 | When the literal occurs at one position only, the leftmost id is the id at that position. |
| `UrlNormalizer.LiteralThenId` | downloader/views.py:19-22 | Text ending in a literal followed by an id has that literal occurring right after what precedes it, capturing the id. |
| `Duration.FormatDuration` | downloader/views.py:32-34 | `str(timedelta(seconds=n))` for a natural `n`. It has no contract of its own. `HoursMinutesSeconds`, `BelowOneDay` and `WholeDays` give its text, and `DurationRoundTrip` shows that no two lengths share a text. |
| `Duration.HoursMinutesSeconds` | downloader/views.py:32-34 | Below one day the text is `H:MM:SS`: hour `n/3600` unpadded, then minutes `(n%3600)/60` and seconds `n%60`, each zero-padded to two digits. |
| `Duration.BelowOneDay` | downloader/views.py:32-34 | Below 86400 seconds there is no day prefix, only the clock. |
| `Duration.DurationText` | downloader/views.py:32-34 | `timedelta(seconds=n)` accepts `n` exactly when it is below 1,000,000,000 days. It then gives the formatted text, and otherwise raises the overflow error carrying the day count, which is above 999999999. |
| `Duration.WholeDays` | downloader/views.py:32-34 | From 86400 seconds on, the text is the day count, then `" day, "` (for one day) or `" days, "`, then the clock of the remainder. |
| `Duration.DurationRoundTrip` | downloader/views.py:32-34 | Parsing the formatted duration back gives the original number of seconds, so no two durations share a text. |
| `Duration.RenderRoundTrip` | downloader/views.py:32-34 | A day count and a within-day clock render to a text that parses back to `days*86400 + secs`. |
| `Duration.ClockRoundTrip` | downloader/views.py:32-34 | The clock text parses back to its seconds and contains no space. |
| `Duration.ParseWithDays` | downloader/views.py:32-34 | A day count, its separator and a clock parse back to the days and the clock's seconds combined. |
| `Duration.ClockText` | downloader/views.py:32-34 | Digit fields joined by colons parse back to their combined value in seconds, and contain no space. |
| `Duration.SeparatorSkipped` | downloader/views.py:32-34 | Skipping the day separator leaves exactly the clock. |
| `Duration.DayCountEndsAtSpace` | downloader/views.py:32-34 | The first space of a day-prefixed text ends the day count. |
| `Duration.MinutesOfHour` | downloader/views.py:32-34 | `timedelta` computes minutes and hours with two `divmod` steps by 60. These give the same hour `n/3600` and minutes `(n%3600)/60` as the one-step formula. |
| `Duration.ZeroExample` | downloader/views.py:32-34 | Zero seconds is `"0:00:00"`. |
| `Duration.HourMinuteSecondExample` | downloader/views.py:32-34 | 3661 seconds is `"1:01:01"`. |
| `Duration.OneDayExample` | downloader/views.py:32-34 | 86400 seconds is `"1 day, 0:00:00"`. |
| `Duration.DayAndClockExample` | downloader/views.py:32-34 | 90061 seconds is `"1 day, 1:01:01"`. |
| `Duration.TwoDaysExample` | downloader/views.py:32-34 | 172800 seconds is `"2 days, 0:00:00"`. |
| `Decimal.NatToString` | downloader/views.py:34 | `str(n)` is a non-empty digit string with no leading zero. |
| `Decimal.NatToStringValue` | downloader/views.py:34 | The digits of `str(n)` read back as `n`. |
| `Decimal.ZeroPadded` | downloader/views.py:34 | The `%02d` fields have exactly the requested width and are digits. |
| `Decimal.ZeroPaddedValue` | downloader/views.py:34 | A zero-padded field reads back as its number. |
| `Decimal.GroupDigits` | downloader/views.py:79 | Grouping a digit string gives 1 to 3 leading digits, then groups of a comma and exactly three digits. |
| `Decimal.Grouped` | downloader/views.py:79 | `"{:,}".format(views)` is well grouped. |
| `Decimal.GroupDigitsUngroups` | downloader/views.py:79 | Removing the commas from a grouped digit string gives the digit string back. |
| `Decimal.GroupedUngroups` | downloader/views.py:79 | Removing the commas from `"{:,}".format(n)` gives `str(n)`: grouping only inserts commas. |
| `Decimal.UngroupConcat` | downloader/views.py:79 | Removing commas distributes over concatenation. |
| `Decimal.UngroupDigits` | downloader/views.py:79 | Removing commas leaves a digit string unchanged. |
| `Decimal.ShortNumeralWellGrouped` | downloader/views.py:79 | One to three digits need no comma. |
| `Decimal.AppendGroupWellGrouped` | downloader/views.py:79 | A well-grouped numeral followed by a comma and three digits is still well grouped. |
| `Decimal.GroupedExamples` | downloader/views.py:79 | 0 is `"0"`, 999 is `"999"` and 1000 is `"1,000"`. |
| `Decimal.SeveralGroupsExample` | downloader/views.py:79 | Seven digits group as `"1,234,567"`. |
| `Retry.FetchWithRetry` | downloader/views.py:36-56 | At most `max_retries` attempts, stopping at the first success, with every earlier attempt a failure. If all attempts fail (or none are allowed) it raises could-not-initialize after exactly `max_retries` attempts. Sleep `k` lasts `2^k` seconds, and there is one sleep fewer than attempts: none after the last failure, none after a success. |
| `Retry.FailTwiceThenSucceed` | downloader/views.py:36-56 | With the default bound of 3, two failures then a success mean three attempts after sleeping 1 then 2 seconds. |
| `Retry.AlwaysFail` | downloader/views.py:36-56 | With the default bound, constant failure means three attempts, sleeps of 1 and 2 seconds, then the error. |
| `Retry.NoAttemptsAllowed` | downloader/views.py:38-56 | A bound of zero raises with no attempt and no sleep. |
| `Streams.SelectStream` | downloader/views.py:112-120 | `"highest"` picks a stream of greatest height, `"lowest"` one of least height, and any other quality the stream whose resolution label equals it. There is no stream exactly when the list is empty, or when the quality is a label that no stream carries. |
| `Streams.HighestIndex` | downloader/views.py:113 | An index of greatest height, the last among equals. |
| `Streams.LowestIndex` | downloader/views.py:115 | An index of least height, the first among equals. |
| `Streams.IndexOfLabel` | downloader/views.py:117 | The first stream with the exact resolution label, or none when no stream has it. |
| `Streams.SelectionExamples` | downloader/views.py:112-120 | Among 360p, 480p and 720p streams: highest is 720p, lowest is 360p, `"480p"` finds 480p, and `"1080p"` finds nothing. |
| `DownloadName.KeepAllowed` | downloader/views.py:125 | The filtered title has only alphanumerics, spaces, `-` and `_`, and is no longer than the title. |
| `DownloadName.KeepAllowedCounts` | downloader/views.py:125 | Each allowed character is kept as often as it occurs in the title, and every other character is dropped. |
| `DownloadName.KeepAllowedConcat` | downloader/views.py:125 | Filtering works character by character: the filter of a concatenation is the concatenation of the filters, so relative order is kept. |
| `DownloadName.KeepAllowedKeepsAllowed` | downloader/views.py:125 | A title of allowed characters only passes through unchanged. |
| `DownloadName.KeepAllowedIdempotent` | downloader/views.py:125 | Filtering twice is filtering once. |
| `DownloadName.SafeTitle` | downloader/views.py:125 | The safe title has only alphanumerics, spaces, `-` and `_`, and does not end in whitespace. `SafeTitleShape` adds that it is the filtered title with only trailing whitespace cut. |
| `DownloadName.SafeTitleShape` | downloader/views.py:125 | The safe title has only allowed characters and does not end in whitespace. It is a prefix of the filtered title (so leading spaces stay), and only whitespace was cut after it. |
| `DownloadName.SafeTitleIdempotent` | downloader/views.py:125 | Sanitising a safe title changes nothing. |
| `DownloadName.Filename` | downloader/views.py:126 | The filename is five characters longer than the safe title and the id together, and ends in `.mp4`. `FilenameParts` places each part. |
| `DownloadName.FilenameParts` | downloader/views.py:126 | The filename is the safe title, `_`, the video id and `.mp4`, in that order and nothing else. |
| `DownloadName.PunctuationDropped` | downloader/views.py:125 | Punctuation is dropped and the space is kept. |
| `DownloadName.TrailingSpaceTrimmed` | downloader/views.py:125 | `rstrip` removes the space left at the end. |
| `DownloadName.TitleFiltered` | downloader/views.py:125 | `"My Video! @#$%"` filters to `"My Video "`. |
| `DownloadName.SafeTitleExample` | downloader/views.py:125 | `"My Video! @#$%"` becomes the safe title `"My Video"`. |
| `DownloadName.FilenameExample` | downloader/views.py:125-126 | That title with id `abc12345678` gives `"My Video_abc12345678.mp4"`. |
| `Text.TrailingWhitespace` | downloader/views.py:125 | The length of the longest all-whitespace suffix. |
| `Text.LeadingWhitespace` | downloader/views.py:61 | The length of the longest all-whitespace prefix. |
| `Text.Rstrip` | downloader/views.py:125 | `rstrip` keeps a prefix that does not end in whitespace, and cuts only whitespace. |
| `Text.Lstrip` | downloader/views.py:61 | The left half of `strip` keeps a suffix that does not start with whitespace, and cuts only whitespace. |
| `Text.Strip` | downloader/views.py:61 | `strip()`, also applied at line 102. It has no contract of its own. `StripShape` bounds its result, `Lstrip` and `Rstrip` say that only whitespace is cut, and `StripEmptyIffBlank` says when it is empty. |
| `Text.StripShape` | downloader/views.py:61 | `strip()` is no longer than its input, and its result neither starts nor ends with whitespace. |
| `Text.StripEmptyIffBlank` | downloader/views.py:61-62 | `strip()` gives the empty string if and only if the text is empty or all whitespace. |
| `Views.Home` | downloader/views.py:58-98 | The behaviour of `home`: (1) A GET shows the blank form. (2) A blank URL gets the prompt page with "Please enter a YouTube URL", and neither the normaliser nor any fetch is reached. (3) The page shows the invalid-format failure exactly when the stripped URL fails normalisation, and then nothing is fetched. (4) It shows the could-not-initialize failure exactly when normalisation succeeds and every attempt fails. (5) It shows the duration-overflow failure exactly when the fetch succeeds but `timedelta` rejects the length. (6) In every other POST case it shows the details page, carrying the clean URL, the video's id, the formatted duration, the grouped views and the video's fields. (7) Each failure shows the text of the `except` branch that catches it. (8) At most three attempts are made. |
| `Views.HomeMessages` | downloader/views.py:88-96 | The texts `home` shows. The URL failure shows "Invalid YouTube URL format" when its exception can be built, and otherwise "Failed to fetch video information". The fetch failure shows its own text. A duration overflow shows the generic text. |
| `Views.CaughtAsPytubeError` | downloader/views.py:88-96 | Which failures the `except PytubeError` branch catches, here and at line 142. It has no contract of its own. It catches the could-not-initialize and no-stream failures. It never catches the missing file or the duration overflow. It catches the URL failure exactly when `RegexMatchError` can be built with one argument. `HomeMessages` and `DownloadMessages` give the resulting texts. |
| `Views.Message` | downloader/views.py:30-140 | `str(e)` of each exception the views raise. These are the literal texts at lines 30, 56, 120 and 140, and `timedelta`'s overflow text. It has no contract of its own. `HomeMessages` and `DownloadMessages` show which of them reach the user. |
| `Views.DownloadVideo` | downloader/views.py:100-151 | The behaviour of `download_video`: (1) A GET redirects home. (2) A blank URL is a 400 "No URL provided", with no normalising or fetching. (3) The failure page carries the stripped URL and the text of the `except` branch that catches its failure. (4) Each failure kind occurs exactly in its case: invalid format, could not initialize, no suitable stream for the quality (default `"highest"`), and file not found. (5) The attachment is answered exactly when none of these holds. It is named by the safe title and the video id, with type `video/mp4` and the matching `Content-Disposition`. |
| `Views.DownloadMessages` | downloader/views.py:142-149 | The texts `download_video` shows: "No suitable stream found" for a missing stream, and "Download failed. Please try again later." for a missing file or a URL failure whose exception cannot be built. |

## Left out

- Django is not modelled beyond a tag for each response. This covers the request object, `render`, `redirect`, `HttpResponse`, templates and the `context` dictionary.
- pytube is a foreign library, so none of it is modelled:
  - `YouTube(...)` with its User-Agent header, `bypass_age_gate`, `vid_info`, `stream.download` and its timeout.
  - A successful fetch is an abstract `Video` value, and the attempt outcomes are an oracle `remote: nat -> bool`. `Video.videoId` stands for `yt.video_id` as pytube reports it. The model does not derive it from the clean URL, although pytube reads it from there.
- The stream list `Video.streams` stands for the progressive MP4 streams that pytube's `get_highest_resolution`, `get_lowest_resolution` and `get_by_resolution` search. pytube first narrows the video's streams to progressive ones, and to the `mp4` subtype for the last two. That restriction is pytube's own and is not modelled, so `Streams.SelectStream` chooses from whatever list it is given. The three queries are modelled only from what they return: the greatest height, the least height, or the exact resolution label. The stream `filter(progressive=True, file_extension='mp4').order_by('resolution').desc()` on lines 71-74 of `home` is left out. The page's stream list is the video's stream list as given.
- The exception class that pytube defines for line 30 is not shown. Whether `RegexMatchError("Invalid YouTube URL format")` can be built with that one argument is therefore the handlers' parameter `urlErrorConstructs`. If it can, the model takes it to be a `PytubeError`, as pytube's `RegexMatchError` is, so both handlers show its text. In `home`, the `RegexMatchError` branch at line 92 would show the same text anyway. If it cannot, building it raises `TypeError`, and both handlers show their generic text.
- The handlers' other branches are modelled as written. `PytubeError` at lines 56 and 120 shows its text. `FileNotFoundError` at line 140 and `timedelta`'s `OverflowError` are not `PytubeError`s, so they show the generic text of `except Exception`.
- `AgeRestrictedError`, `VideoUnavailable` and other remote failures after a successful fetch are left out. They are pytube behaviour.
- The filesystem is reduced to the boolean `saved`, which says whether the file exists after the download. This covers `os.makedirs`, `os.path.join`, `os.path.exists` and reading the file back. The file's bytes are not modelled.
- `time.sleep` and `logger` calls are left out. The retry loop reports the list of sleep durations instead of waiting.
- `str.isalnum` is the parameter `alnum`, because its Unicode definition is not modelled. The properties hold for every such predicate. `AsciiAlnum` is used only in the examples.
- `format_duration` takes natural numbers only. Negative, fractional or `None` lengths are not modelled.
- Duration.FormatDuration: renders every natural, including lengths of 1,000,000,000 days or more, where `timedelta` raises `OverflowError`. `Duration.DurationText` adds that bound, and `home` uses it.
- `Retry.FetchWithRetry` keeps no exception messages from failed attempts. It records only that the attempt failed.

Two behaviours of the code are worth noting:

- The code has no real 11-character length check. The length test on line 27 is always true, and a longer id is silently truncated.
- With the default bound, the backoff sleeps 1 and then 2 seconds, with no sleep after the third failure.

=== FILE: decimal.dfy ===
/** Decimal renderings of natural numbers as Python produces them: `str(n)` and `"%d"`,
    zero-padded `"%02d"`, and the thousands grouping of `"{:,}".format(n)`. */
module Decimal {

  predicate IsDigit(c: char)
  {
    '0' <= c <= '9'
  }

  predicate AllDigits(s: string)
  {
    forall i :: 0 <= i < |s| ==> IsDigit(s[i])
  }

  function DigitChar(d: nat): (c: char)
    requires d < 10
    ensures IsDigit(c)
  {
    ('0' as int + d) as char
  }

  function DigitValue(c: char): nat
    requires IsDigit(c)
  {
    c as int - '0' as int
  }

  function Pow10(k: nat): (p: nat)
    ensures p >= 1
  {
    if k == 0 then 1 else 10 * Pow10(k - 1)
  }

  /** The number a string of decimal digits denotes, most significant digit first. */
  function Value(s: string): nat
    requires AllDigits(s)
  {
    if s == [] then 0 else Value(s[..|s| - 1]) * 10 + DigitValue(s[|s| - 1])
  }

  /** `str(n)`: at least one digit and no leading zero. */
  function NatToString(n: nat): (r: string)
    ensures 1 <= |r| && AllDigits(r)
    ensures |r| > 1 ==> r[0] != '0'
    decreases n
  {
    if n < 10 then [DigitChar(n)] else NatToString(n / 10) + [DigitChar(n % 10)]
  }

  /** `"%0<width>d" % n` for an `n` that fits: exactly `width` digits. */
  function ZeroPadded(n: nat, width: nat): (r: string)
    requires n < Pow10(width)
    ensures |r| == width && AllDigits(r)
    decreases width
  {
    if width == 0 then [] else ZeroPadded(n / 10, width - 1) + [DigitChar(n % 10)]
  }

  /** `str(n)` reads back as `n`. */
  lemma {:induction false} NatToStringValue(n: nat)
    ensures Value(NatToString(n)) == n
    decreases n
  {
    if n >= 10 {
      var r := NatToString(n);
      assert r[..|r| - 1] == NatToString(n / 10);
      NatToStringValue(n / 10);
    }
  }

  /** The zero-padded digits read back as the number they pad. */
  lemma {:induction false} ZeroPaddedValue(n: nat, width: nat)
    requires n < Pow10(width)
    ensures Value(ZeroPadded(n, width)) == n
    decreases width
  {
    if width > 0 {
      var r := ZeroPadded(n, width);
      assert r[..|r| - 1] == ZeroPadded(n / 10, width - 1);
      ZeroPaddedValue(n / 10, width - 1);
    }
  }

  /** Commas stand exactly at every fourth position counted from the right end, and
      everything else is a digit; in particular the string neither starts nor ends with a
      comma. */
  predicate WellGrouped(r: string)
  {
    && |r| % 4 != 0
    && (forall i :: 0 <= i < |r| ==> (r[i] == ',' <==> (|r| - i) % 4 == 0))
    && (forall i :: 0 <= i < |r| ==> r[i] == ',' || IsDigit(r[i]))
  }

  lemma ShortNumeralWellGrouped(s: string)
    requires 1 <= |s| <= 3 && AllDigits(s)
    ensures WellGrouped(s)
  {
  }

  lemma AppendGroupWellGrouped(hi: string, lo: string)
    requires WellGrouped(hi) && |lo| == 3 && AllDigits(lo)
    ensures WellGrouped(hi + "," + lo)
  {
    var r := hi + "," + lo;
    assert |r| == |hi| + 4;
    forall i | 0 <= i < |hi|
      ensures r[i] == hi[i] && (|r| - i) % 4 == (|hi| - i) % 4
    {
    }
    forall i | |hi| < i < |r|
      ensures r[i] == lo[i - |hi| - 1] && 1 <= |r| - i <= 3
    {
    }
  }

  /** Commas inserted into a string of digits before every group of three, counted from the
      right. */
  function GroupDigits(s: string): (r: string)
    requires 1 <= |s| && AllDigits(s)
    ensures WellGrouped(r)
    decreases |s|
  {
    if |s| <= 3 then
      ShortNumeralWellGrouped(s);
      s
    else
      var hi := GroupDigits(s[..|s| - 3]);
      var lo := s[|s| - 3..];
      AppendGroupWellGrouped(hi, lo);
      hi + "," + lo
  }

  /** `"{:,}".format(n)`: the digits of `n` with a comma before every group of three, counted
      from the right. */
  function Grouped(n: nat): (r: string)
    ensures WellGrouped(r)
  {
    GroupDigits(NatToString(n))
  }

  /** `s` with every comma removed. */
  function Ungroup(s: string): (r: string)
  {
    if s == [] then []
    else (if s[0] == ',' then [] else [s[0]]) + Ungroup(s[1..])
  }

  lemma {:induction false} UngroupConcat(a: string, b: string)
    ensures Ungroup(a + b) == Ungroup(a) + Ungroup(b)
    decreases |a|
  {
    if a != [] {
      var h := if a[0] == ',' then [] else [a[0]];
      assert (a + b)[0] == a[0];
      assert (a + b)[1..] == a[1..] + b;
      UngroupConcat(a[1..], b);
      assert Ungroup(a + b) == h + Ungroup(a[1..] + b);
      assert Ungroup(a) == h + Ungroup(a[1..]);
    } else {
      assert a + b == b;
    }
  }

  lemma {:induction false} UngroupDigits(s: string)
    requires AllDigits(s)
    ensures Ungroup(s) == s
    decreases |s|
  {
    if s != [] {
      UngroupDigits(s[1..]);
    }
  }

  lemma {:induction false} GroupDigitsUngroups(s: string)
    requires 1 <= |s| && AllDigits(s)
    ensures Ungroup(GroupDigits(s)) == s
    decreases |s|
  {
    if |s| <= 3 {
      UngroupDigits(s);
    } else {
      var hi, lo := s[..|s| - 3], s[|s| - 3..];
      assert GroupDigits(s) == GroupDigits(hi) + ("," + lo);
      GroupDigitsUngroups(hi);
      UngroupConcat(GroupDigits(hi), "," + lo);
      UngroupConcat(",", lo);
      UngroupDigits(lo);
      assert Ungroup(",") == [] by {
        assert ","[1..] == [];
      }
      assert s == hi + lo;
    }
  }

  /** Removing the grouping commas gives back exactly `str(n)`. */
  lemma GroupedUngroups(n: nat)
    ensures Ungroup(Grouped(n)) == NatToString(n)
  {
    GroupDigitsUngroups(NatToString(n));
  }

  /** Concrete renderings: zero and a number with one group of three. */
  lemma GroupedExamples()
    ensures Grouped(0) == "0"
    ensures Grouped(999) == "999"
    ensures Grouped(1000) == "1,000"
  {
    assert NatToString(99) == "99";
    assert NatToString(100) == "100";
  }

  /** A number with several groups. */
  lemma SeveralGroupsExample()
    ensures GroupDigits("1234567") == "1,234,567"
  {
    assert GroupDigits("1234") == "1,234";
  }
}

=== FILE: download_name.dfy ===
/** The file name `download_video` gives a download: the title stripped to alphanumerics,
    spaces, hyphens and underscores, trailing whitespace trimmed, then `_<video id>.mp4`.

    `str.isalnum` is passed in as `alnum`: which characters Python counts as alphanumeric is a
    property of its Unicode tables, and none of the facts below depend on it. */
module DownloadName {
  import opened Text

  /** The test of the generator expression: `c.isalnum() or c in (' ', '-', '_')`. */
  predicate Allowed(alnum: char -> bool, c: char)
  {
    alnum(c) || c == ' ' || c == '-' || c == '_'
  }

  predicate AllAllowed(alnum: char -> bool, s: string)
  {
    forall i :: 0 <= i < |s| ==> Allowed(alnum, s[i])
  }

  /** `"".join(c for c in title if ...)`: the allowed characters of `title`, in order. */
  function KeepAllowed(alnum: char -> bool, title: string): (r: string)
    ensures AllAllowed(alnum, r)
    ensures |r| <= |title|
  {
    if title == [] then []
    else (if Allowed(alnum, title[0]) then [title[0]] else []) + KeepAllowed(alnum, title[1..])
  }

  /** `safe_title`: the kept characters with trailing whitespace removed. */
  function SafeTitle(alnum: char -> bool, title: string): (r: string)
    ensures AllAllowed(alnum, r)
    ensures r == [] || !IsWhitespace(r[|r| - 1])
  {
    Rstrip(KeepAllowed(alnum, title))
  }

  /** `f"{safe_title}_{yt.video_id}.mp4"`. */
  function Filename(alnum: char -> bool, title: string, videoId: string): (r: string)
    ensures |r| == |SafeTitle(alnum, title)| + |videoId| + 5
    ensures r[|r| - 4..] == ".mp4"
  {
    SafeTitle(alnum, title) + "_" + videoId + ".mp4"
  }

  /** Filtering commutes with concatenation, so it keeps the relative order of what it keeps. */
  lemma {:induction false} KeepAllowedConcat(alnum: char -> bool, a: string, b: string)
    ensures KeepAllowed(alnum, a + b) == KeepAllowed(alnum, a) + KeepAllowed(alnum, b)
    decreases |a|
  {
    if a == [] {
      assert a + b == b;
    } else {
      var h := if Allowed(alnum, a[0]) then [a[0]] else [];
      assert (a + b)[0] == a[0];
      assert (a + b)[1..] == a[1..] + b;
      KeepAllowedConcat(alnum, a[1..], b);
      assert KeepAllowed(alnum, a + b) == h + KeepAllowed(alnum, a[1..] + b);
      assert KeepAllowed(alnum, a) == h + KeepAllowed(alnum, a[1..]);
    }
  }

  /** Every allowed character is kept as often as it occurs; nothing else is kept. */
  lemma {:induction false} KeepAllowedCounts(alnum: char -> bool, title: string, c: char)
    ensures multiset(KeepAllowed(alnum, title))[c] == if Allowed(alnum, c) then multiset(title)[c] else 0
    decreases |title|
  {
    if title != [] {
      KeepAllowedCounts(alnum, title[1..], c);
      assert title == [title[0]] + title[1..];
      assert multiset(title) == multiset([title[0]]) + multiset(title[1..]);
    }
  }

  /** A string of allowed characters passes the filter unchanged. */
  lemma {:induction false} KeepAllowedKeepsAllowed(alnum: char -> bool, s: string)
    requires AllAllowed(alnum, s)
    ensures KeepAllowed(alnum, s) == s
    decreases |s|
  {
    if s != [] {
      KeepAllowedKeepsAllowed(alnum, s[1..]);
    }
  }

  /** Filtering twice is filtering once. */
  lemma KeepAllowedIdempotent(alnum: char -> bool, title: string)
    ensures KeepAllowed(alnum, KeepAllowed(alnum, title)) == KeepAllowed(alnum, title)
  {
    KeepAllowedKeepsAllowed(alnum, KeepAllowed(alnum, title));
  }

  /** The safe title holds only allowed characters, ends in none of the whitespace it trimmed,
      and is what the filter kept up to a tail of whitespace; leading spaces therefore stay. */
  lemma SafeTitleShape(alnum: char -> bool, title: string)
    ensures AllAllowed(alnum, SafeTitle(alnum, title))
    ensures SafeTitle(alnum, title) == [] || !IsWhitespace(SafeTitle(alnum, title)[|SafeTitle(alnum, title)| - 1])
    ensures var kept := KeepAllowed(alnum, title);
      SafeTitle(alnum, title) == kept[..|SafeTitle(alnum, title)|]
      && AllWhitespace(kept[|SafeTitle(alnum, title)|..])
  {
    var kept := KeepAllowed(alnum, title);
    var r := SafeTitle(alnum, title);
    forall i | 0 <= i < |r|
      ensures Allowed(alnum, r[i])
    {
      assert r[i] == kept[i];
    }
  }

  /** Sanitising a safe title again changes nothing. */
  lemma SafeTitleIdempotent(alnum: char -> bool, title: string)
    ensures SafeTitle(alnum, SafeTitle(alnum, title)) == SafeTitle(alnum, title)
  {
    var r := SafeTitle(alnum, title);
    SafeTitleShape(alnum, title);
    KeepAllowedKeepsAllowed(alnum, r);
  }

  /** The file name is the safe title, an underscore, the id and the `.mp4` extension. */
  lemma FilenameParts(alnum: char -> bool, title: string, videoId: string)
    ensures var f := Filename(alnum, title, videoId);
      var n := |SafeTitle(alnum, title)|;
      && |f| == n + 1 + |videoId| + 4
      && f[..n] == SafeTitle(alnum, title)
      && f[n] == '_'
      && f[n + 1..n + 1 + |videoId|] == videoId
      && f[n + 1 + |videoId|..] == ".mp4"
  {
  }

  /** ASCII letters and digits, the part of `str.isalnum` the example below needs. */
  predicate AsciiAlnum(c: char)
  {
    ('a' <= c <= 'z') || ('A' <= c <= 'Z') || ('0' <= c <= '9')
  }

  lemma PunctuationDropped()
    ensures KeepAllowed(AsciiAlnum, "! @#$%") == " "
  {
    assert KeepAllowed(AsciiAlnum, "%") == [];
    assert KeepAllowed(AsciiAlnum, "$%") == [];
    assert KeepAllowed(AsciiAlnum, "#$%") == [];
    assert KeepAllowed(AsciiAlnum, "@#$%") == [];
  }

  lemma TrailingSpaceTrimmed()
    ensures Rstrip("My Video ") == "My Video"
  {
    assert "My Video "[..8] == "My Video";
  }

  /** `My Video! @#$%` keeps its letters and the space before the punctuation. The title is a
      parameter fixed by the precondition, so that the solver does not unfold the filter over
      the literal eagerly. */
  lemma TitleFiltered(title: string)
    requires title == "My Video! @#$%"
    ensures KeepAllowed(AsciiAlnum, title) == "My Video "
  {
    var head, tail := "My Video", "! @#$%";
    assert title == head + tail;
    assert AllAllowed(AsciiAlnum, head);
    calc {
      KeepAllowed(AsciiAlnum, title);
      { KeepAllowedConcat(AsciiAlnum, head, tail); }
      KeepAllowed(AsciiAlnum, head) + KeepAllowed(AsciiAlnum, tail);
      { KeepAllowedKeepsAllowed(AsciiAlnum, head); PunctuationDropped(); }
      head + " ";
    }
  }

  /** `My Video! @#$%` loses its punctuation and the space left at its end. */
  lemma SafeTitleExample(title: string)
    requires title == "My Video! @#$%"
    ensures SafeTitle(AsciiAlnum, title) == "My Video"
  {
    TitleFiltered(title);
    TrailingSpaceTrimmed();
  }

  /** The file name of that title for the id `abc12345678`. */
  lemma FilenameExample(title: string, videoId: string)
    requires title == "My Video! @#$%" && videoId == "abc12345678"
    ensures Filename(AsciiAlnum, title, videoId) == "My Video_abc12345678.mp4"
  {
    SafeTitleExample(title);
  }
}

=== FILE: duration.dfy ===
/** `format_duration`: Python's `str(timedelta(seconds=n))` for a whole, non-negative number of
    seconds. */
module Duration {
  import opened Outcomes
  import opened Decimal
  import opened Text

  const SecondsPerDay: nat := 86400

  /** `timedelta` refuses a day count above this bound. */
  const MaxDays: nat := 999999999

  /** The clock part `"%d:%02d:%02d" % (hh, mm, ss)`, where `timedelta` computes
      `mm, ss = divmod(seconds, 60)` and then `hh, mm = divmod(mm, 60)`. */
  function Clock(seconds: nat): string
    requires seconds < SecondsPerDay
  {
    var minutes := seconds / 60;
    NatToString(minutes / 60) + ":" + ZeroPadded(minutes % 60, 2) + ":" + ZeroPadded(seconds % 60, 2)
  }

  /** The separator after the day count: singular for exactly one day. */
  function DaySeparator(days: nat): string
  {
    if days == 1 then " day, " else " days, "
  }

  /** `str(timedelta(seconds=seconds))`: the clock of the seconds within the day, preceded by
      `"D day, "` or `"D days, "` once the duration reaches a whole day. */
  function FormatDuration(seconds: nat): string
  {
    Render(seconds / SecondsPerDay, seconds % SecondsPerDay)
  }

  /** `format_duration(seconds)` itself: the text of `FormatDuration`, or the `OverflowError` that
      `timedelta(seconds=seconds)` raises when the whole days exceed `MaxDays`. */
  function DurationText(seconds: nat): (r: Result<string>)
    ensures r.Ok? <==> seconds < (MaxDays + 1) * SecondsPerDay
    ensures r.Ok? ==> r.value == FormatDuration(seconds)
    ensures r.Err? ==> r.error == DurationOverflow(seconds / SecondsPerDay) && r.error.days > MaxDays
  {
    var days := seconds / SecondsPerDay;
    if days <= MaxDays then Ok(FormatDuration(seconds)) else Err(DurationOverflow(days))
  }

  /** The text for a whole number of days and the seconds left over within the last day. */
  function Render(days: nat, secs: nat): string
    requires secs < SecondsPerDay
  {
    if days == 0 then Clock(secs) else NatToString(days) + DaySeparator(days) + Clock(secs)
  }

  /** Below one day the text is `H:MM:SS` with `H = n / 3600` unpadded and
      `MM = (n % 3600) / 60` and `SS = n % 60` padded to two digits. */
  lemma HoursMinutesSeconds(n: nat)
    requires n < SecondsPerDay
    ensures FormatDuration(n) == NatToString(n / 3600) + ":" + ZeroPadded(n % 3600 / 60, 2) + ":" + ZeroPadded(n % 60, 2)
  {
    BelowOneDay(n);
    MinutesOfHour(n);
  }

  /** Below one day there is no day count: the text is the clock alone. */
  lemma BelowOneDay(n: nat)
    requires n < SecondsPerDay
    ensures FormatDuration(n) == Clock(n)
  {
    assert n / SecondsPerDay == 0 && n % SecondsPerDay == n;
  }

  lemma MinutesOfHour(n: nat)
    ensures n / 60 / 60 == n / 3600 && n / 60 % 60 == n % 3600 / 60
  {
    var h, m, s := n / 3600, n % 3600 / 60, n % 60;
    assert n == 3600 * h + 60 * m + s;
    assert n / 60 == 60 * h + m;
  }

  /** Reads `H:MM:SS` back into seconds. */
  function ParseClock(s: string): Option<nat>
  {
    if |s| >= 7 && s[|s| - 6] == ':' && s[|s| - 3] == ':'
       && AllDigits(s[..|s| - 6]) && AllDigits(s[|s| - 5..|s| - 3]) && AllDigits(s[|s| - 2..])
    then Some(Value(s[..|s| - 6]) * 3600 + Value(s[|s| - 5..|s| - 3]) * 60 + Value(s[|s| - 2..]))
    else None
  }

  /** What follows a `" day, "` or `" days, "` separator at the start of `rest`. */
  function AfterSeparator(rest: string): Option<string>
  {
    if |rest| >= 6 && rest[..6] == " day, " then Some(rest[6..])
    else if |rest| >= 7 && rest[..7] == " days, " then Some(rest[7..])
    else None
  }

  /** Reads the whole rendering back: an optional day count with its `" day, "` or
      `" days, "` separator, then the clock. */
  function ParseDuration(s: string): Option<nat>
  {
    match IndexOf(s, ' ')
    case None => ParseClock(s)
    case Some(i) =>
      match AfterSeparator(s[i..])
      case None => None
      case Some(clock) =>
        if !AllDigits(s[..i]) then None
        else
          match ParseClock(clock)
          case None => None
          case Some(secs) => Some(Value(s[..i]) * SecondsPerDay + secs)
  }

  /** Any hour digits, two minute digits and two second digits joined by colons read back as
      the seconds they denote, and hold no space. */
  lemma ClockText(hh: string, mm: string, ss: string)
    requires 1 <= |hh| && AllDigits(hh)
    requires |mm| == 2 && AllDigits(mm) && |ss| == 2 && AllDigits(ss)
    ensures ParseClock(hh + ":" + mm + ":" + ss) == Some(Value(hh) * 3600 + Value(mm) * 60 + Value(ss))
    ensures forall k :: 0 <= k < |hh + ":" + mm + ":" + ss| ==> (hh + ":" + mm + ":" + ss)[k] != ' '
  {
    var c := hh + ":" + mm + ":" + ss;
    ClockFields(hh, mm, ss);
    ParseClockFields(c, hh, mm, ss);
    ClockHasNoSpace(hh, mm, ss);
  }

  /** Where the three fields sit in the joined text. */
  lemma ClockFields(hh: string, mm: string, ss: string)
    requires |mm| == 2 && |ss| == 2
    ensures var c := hh + ":" + mm + ":" + ss;
      |c| == |hh| + 6 && c[|c| - 6] == ':' && c[|c| - 3] == ':'
      && c[..|c| - 6] == hh && c[|c| - 5..|c| - 3] == mm && c[|c| - 2..] == ss
  {
    var c := hh + ":" + mm + ":" + ss;
    assert c[..|c| - 6] == hh;
    assert c[|c| - 5..|c| - 3] == mm;
    assert c[|c| - 2..] == ss;
  }

  lemma ParseClockFields(c: string, hh: string, mm: string, ss: string)
    requires 1 <= |hh| && AllDigits(hh) && AllDigits(mm) && AllDigits(ss)
    requires |c| == |hh| + 6 && c[|c| - 6] == ':' && c[|c| - 3] == ':'
    requires c[..|c| - 6] == hh && c[|c| - 5..|c| - 3] == mm && c[|c| - 2..] == ss
    ensures ParseClock(c) == Some(Value(hh) * 3600 + Value(mm) * 60 + Value(ss))
  {
  }

  lemma ClockHasNoSpace(hh: string, mm: string, ss: string)
    requires AllDigits(hh) && AllDigits(mm) && AllDigits(ss)
    ensures forall k :: 0 <= k < |hh + ":" + mm + ":" + ss| ==> (hh + ":" + mm + ":" + ss)[k] != ' '
  {
    var c := hh + ":" + mm + ":" + ss;
    forall k | 0 <= k < |c|
      ensures c[k] != ' '
    {
      if k < |hh| {
        assert c[k] == hh[k];
      } else if |hh| < k < |hh| + 1 + |mm| {
        assert c[k] == mm[k - |hh| - 1];
      } else if |hh| + 1 + |mm| < k {
        assert c[k] == ss[k - |hh| - 2 - |mm|];
      }
    }
  }

  lemma ClockRoundTrip(n: nat)
    requires n < SecondsPerDay
    ensures ParseClock(Clock(n)) == Some(n)
    ensures forall k :: 0 <= k < |Clock(n)| ==> Clock(n)[k] != ' '
  {
    var minutes := n / 60;
    var h, m, sec := minutes / 60, minutes % 60, n % 60;
    assert Pow10(2) == 100;
    assert Clock(n) == NatToString(h) + ":" + ZeroPadded(m, 2) + ":" + ZeroPadded(sec, 2);
    ClockText(NatToString(h), ZeroPadded(m, 2), ZeroPadded(sec, 2));
    NatToStringValue(h);
    ZeroPaddedValue(m, 2);
    ZeroPaddedValue(sec, 2);
    SixtiesSplit(n, minutes, h, m, sec);
  }

  lemma SixtiesSplit(n: nat, minutes: nat, h: nat, m: nat, sec: nat)
    requires minutes == n / 60 && h == minutes / 60 && m == minutes % 60 && sec == n % 60
    ensures n == h * 3600 + m * 60 + sec
  {
  }

  lemma ParseWithDays(days: nat, clock: string, secs: nat)
    requires days >= 1
    requires ParseClock(clock) == Some(secs)
    ensures ParseDuration(NatToString(days) + DaySeparator(days) + clock) == Some(days * SecondsPerDay + secs)
  {
    var d := NatToString(days);
    DayCountEndsAtSpace(d, DaySeparator(days), clock);
    SeparatorSkipped(days, clock);
    NatToStringValue(days);
  }

  lemma SeparatorSkipped(days: nat, clock: string)
    ensures AfterSeparator(DaySeparator(days) + clock) == Some(clock)
  {
    var sep := DaySeparator(days);
    var rest := sep + clock;
    assert rest[..|sep|] == sep;
    assert rest[|sep|..] == clock;
    if days != 1 {
      assert rest[4] == 's';
      assert rest[..6] != " day, ";
    }
  }

  /** The first space of `"D day, ..."` is the one right after the day count. */
  lemma DayCountEndsAtSpace(d: string, sep: string, clock: string)
    requires AllDigits(d) && |sep| >= 1 && sep[0] == ' '
    ensures var r := d + sep + clock;
      IndexOf(r, ' ') == Some(|d|) && r[..|d|] == d && r[|d|..] == sep + clock
  {
    var r := d + sep + clock;
    assert r[|d|] == ' ';
    assert forall k :: 0 <= k < |d| ==> r[k] == d[k];
    assert r[..|d|] == d;
    assert r[|d|..] == sep + clock;
  }

  /** Every duration reads back as the number of seconds it was made from. */
  lemma DurationRoundTrip(n: nat)
    ensures ParseDuration(FormatDuration(n)) == Some(n)
  {
    var days, secs := n / SecondsPerDay, n % SecondsPerDay;
    DaysAndSeconds(n, days, secs);
    RenderRoundTrip(days, secs);
  }

  /** The day count and the clock are both read back. */
  lemma RenderRoundTrip(days: nat, secs: nat)
    requires secs < SecondsPerDay
    ensures ParseDuration(Render(days, secs)) == Some(days * SecondsPerDay + secs)
  {
    ClockRoundTrip(secs);
    if days == 0 {
      assert IndexOf(Clock(secs), ' ').None?;
    } else {
      ParseWithDays(days, Clock(secs), secs);
    }
  }

  lemma DaysAndSeconds(n: nat, days: nat, secs: nat)
    requires days == n / SecondsPerDay && secs == n % SecondsPerDay
    ensures secs < SecondsPerDay && days * SecondsPerDay + secs == n
  {
  }

  /** From one day on, the day count and its separator precede the clock of the remaining
      seconds. */
  lemma WholeDays(n: nat)
    requires n >= SecondsPerDay
    ensures FormatDuration(n) == NatToString(n / SecondsPerDay) + DaySeparator(n / SecondsPerDay) + FormatDuration(n % SecondsPerDay)
  {
    BelowOneDay(n % SecondsPerDay);
  }

  /** The few numerals the examples below are made of. */
  lemma SmallNumerals()
    ensures NatToString(0) == "0" && NatToString(1) == "1" && NatToString(2) == "2"
    ensures ZeroPadded(0, 2) == "00" && ZeroPadded(1, 2) == "01"
  {
    assert ZeroPadded(0, 1) == "0";
  }

  /** Zero seconds is written `0:00:00`. */
  lemma ZeroExample()
    ensures FormatDuration(0) == "0:00:00"
  {
    BelowOneDay(0);
    assert Clock(0) == NatToString(0) + ":" + ZeroPadded(0, 2) + ":" + ZeroPadded(0, 2);
    SmallNumerals();
  }

  /** One hour, one minute and one second is written `1:01:01`. */
  lemma HourMinuteSecondExample()
    ensures FormatDuration(3661) == "1:01:01"
  {
    BelowOneDay(3661);
    assert Clock(3661) == NatToString(1) + ":" + ZeroPadded(1, 2) + ":" + ZeroPadded(1, 2);
    SmallNumerals();
  }

  /** A whole day is written `1 day`. */
  lemma OneDayExample()
    ensures FormatDuration(86400) == "1 day, 0:00:00"
  {
    SmallNumerals();
    ZeroExample();
    WholeDays(86400);
  }

  /** A day and a bit keeps the clock of the remainder. */
  lemma DayAndClockExample()
    ensures FormatDuration(90061) == "1 day, 1:01:01"
  {
    SmallNumerals();
    HourMinuteSecondExample();
    WholeDays(90061);
  }

  /** Several days are written `N days`. */
  lemma TwoDaysExample()
    ensures FormatDuration(172800) == "2 days, 0:00:00"
  {
    SmallNumerals();
    ZeroExample();
    WholeDays(172800);
  }
}

=== FILE: outcomes.dfy ===
/** Failure-carrying datatypes shared by the views, and the failures they name. */
module Outcomes {

  /** A value that may be missing: a failed search, an unparsable text, an absent stream. */
  datatype Option<+T> = None | Some(value: T)

  /** The failures the views distinguish: one per exception the views raise themselves, and the
      `OverflowError` that `timedelta` raises for a day count beyond its range. */
  datatype Error =
    | InvalidUrlFormat          // no accepted URL shape matched (downloader/views.py:30)
    | CouldNotInitialize        // every metadata fetch attempt failed (downloader/views.py:56)
    | NoSuitableStream          // the requested quality names no stream (downloader/views.py:120)
    | FileNotFound              // the downloaded file is not on disk (downloader/views.py:140)
    | DurationOverflow(days: nat) // `timedelta(seconds=...)` out of range (downloader/views.py:34)

  /** A value, or the failure that stopped the computation. */
  datatype Result<+T> = Ok(value: T) | Err(error: Error)
}

=== FILE: retry.dfy ===
/** `get_yt_object`: builds the remote video handle, retrying with exponential backoff.

    The remote service is an oracle `remote` that says whether attempt number `k` (counting
    from zero) succeeds. Instead of sleeping, the method reports how many attempts it made and
    the list of sleep durations, in seconds, it would have waited. */
module Retry {
  import opened Outcomes

  const DefaultMaxRetries: int := 3

  function Pow2(k: nat): nat
  {
    if k == 0 then 1 else 2 * Pow2(k - 1)
  }

  /** Makes at most `maxRetries` attempts and stops at the first that succeeds; after a failed
      attempt `k` it sleeps `2^k` seconds if another attempt remains. On success `r` holds the
      number of the successful attempt. */
  method FetchWithRetry(remote: nat -> bool, maxRetries: int) returns (r: Result<nat>, attempts: nat, sleeps: seq<nat>)
    ensures attempts <= (if maxRetries < 0 then 0 else maxRetries)
    ensures r.Ok? ==> r.value + 1 == attempts && remote(r.value)
    ensures r.Ok? ==> forall k :: 0 <= k < r.value ==> !remote(k)
    ensures r.Err? ==> r.error == CouldNotInitialize
    ensures r.Err? ==> attempts == (if maxRetries < 0 then 0 else maxRetries)
    ensures r.Err? ==> forall k :: 0 <= k < attempts ==> !remote(k)
    ensures |sleeps| == (if attempts == 0 then 0 else attempts - 1)
    ensures forall i :: 0 <= i < |sleeps| ==> sleeps[i] == Pow2(i)
  {
    var attempt := 0;
    sleeps := [];
    while attempt < maxRetries
      invariant 0 <= attempt && (attempt <= maxRetries || attempt == 0)
      invariant forall k :: 0 <= k < attempt ==> !remote(k)
      invariant |sleeps| == (if attempt < maxRetries then attempt else if attempt == 0 then 0 else attempt - 1)
      invariant forall i :: 0 <= i < |sleeps| ==> sleeps[i] == Pow2(i)
    {
      if remote(attempt) {
        return Ok(attempt), attempt + 1, sleeps;
      }
      if attempt < maxRetries - 1 {
        sleeps := sleeps + [Pow2(attempt)];
      }
      attempt := attempt + 1;
    }
    return Err(CouldNotInitialize), attempt, sleeps;
  }

  /** With the default bound, a service that fails twice and then answers is reached on the
      third attempt after sleeping one and then two seconds. */
  method FailTwiceThenSucceed() returns (r: Result<nat>, attempts: nat, sleeps: seq<nat>)
    ensures r == Ok(2) && attempts == 3 && sleeps == [1, 2]
  {
    var remote := (k: nat) => k >= 2;
    r, attempts, sleeps := FetchWithRetry(remote, DefaultMaxRetries);
    assert remote(2) && !remote(0) && !remote(1);
    assert Pow2(1) == 2;
  }

  /** With the default bound, a service that never answers costs three attempts, sleeps of one
      and two seconds and no sleep after the last failure, then the could-not-initialize error. */
  method AlwaysFail() returns (r: Result<nat>, attempts: nat, sleeps: seq<nat>)
    ensures r == Err(CouldNotInitialize) && attempts == 3 && sleeps == [1, 2]
  {
    r, attempts, sleeps := FetchWithRetry(k => false, DefaultMaxRetries);
    assert Pow2(1) == 2;
  }

  /** A bound of zero raises at once: no attempt, no sleep. */
  method NoAttemptsAllowed(remote: nat -> bool) returns (r: Result<nat>, attempts: nat, sleeps: seq<nat>)
    ensures r == Err(CouldNotInitialize) && attempts == 0 && sleeps == []
  {
    r, attempts, sleeps := FetchWithRetry(remote, 0);
  }
}

=== FILE: streams.dfy ===
/** The quality dispatch of `download_video`: `"highest"`, `"lowest"`, or an exact resolution
    label, chosen over the list of streams those queries search: the progressive MP4 streams
    of the video, a restriction the remote library applies before the choice. */
module Streams {
  import opened Outcomes

  /** One downloadable encoding: its resolution label, such as `"720p"`, and the height that
      label denotes. */
  datatype Stream = Stream(resolution: string, height: nat)

  /** The stream of greatest height; among equals, the last, as taking the last element after
      an ascending stable sort would. */
  function HighestIndex(streams: seq<Stream>): (i: nat)
    requires |streams| > 0
    ensures i < |streams|
    ensures forall j :: 0 <= j < |streams| ==> streams[j].height <= streams[i].height
    ensures forall j :: i < j < |streams| ==> streams[j].height < streams[i].height
  {
    if |streams| == 1 then 0
    else
      var k := HighestIndex(streams[..|streams| - 1]);
      if streams[|streams| - 1].height >= streams[k].height then |streams| - 1 else k
  }

  /** The stream of least height; among equals, the first, as taking the first element after
      an ascending stable sort would. */
  function LowestIndex(streams: seq<Stream>): (i: nat)
    requires |streams| > 0
    ensures i < |streams|
    ensures forall j :: 0 <= j < |streams| ==> streams[i].height <= streams[j].height
    ensures forall j :: 0 <= j < i ==> streams[i].height < streams[j].height
  {
    if |streams| == 1 then 0
    else
      var k := LowestIndex(streams[..|streams| - 1]);
      if streams[|streams| - 1].height < streams[k].height then |streams| - 1 else k
  }

  /** The first stream whose label is exactly `wanted`. */
  function IndexOfLabel(streams: seq<Stream>, wanted: string): (r: Option<nat>)
    ensures r.Some? ==> r.value < |streams| && streams[r.value].resolution == wanted
    ensures r.Some? ==> forall j :: 0 <= j < r.value ==> streams[j].resolution != wanted
    ensures r.None? ==> forall j :: 0 <= j < |streams| ==> streams[j].resolution != wanted
  {
    if streams == [] then None
    else if streams[0].resolution == wanted then Some(0)
    else
      match IndexOfLabel(streams[1..], wanted)
      case None => None
      case Some(i) => Some(i + 1)
  }

  /** `yt.streams.get_highest_resolution()`, `get_lowest_resolution()` or
      `get_by_resolution(quality)`, according to `quality`. */
  function SelectStream(streams: seq<Stream>, quality: string): (r: Option<Stream>)
    ensures r.Some? ==> r.value in streams
    ensures r.None? <==>
      (streams == [] || (quality != "highest" && quality != "lowest" &&
                         forall s :: s in streams ==> s.resolution != quality))
    ensures r.Some? && quality == "highest" ==> forall s :: s in streams ==> s.height <= r.value.height
    ensures r.Some? && quality == "lowest" ==> forall s :: s in streams ==> r.value.height <= s.height
    ensures r.Some? && quality != "highest" && quality != "lowest" ==> r.value.resolution == quality
  {
    if streams == [] then None
    else if quality == "highest" then Some(streams[HighestIndex(streams)])
    else if quality == "lowest" then Some(streams[LowestIndex(streams)])
    else
      match IndexOfLabel(streams, quality)
      case None => None
      case Some(i) => Some(streams[i])
  }

  /** Streams at 360p, 480p and 720p: the highest is 720p, the lowest 360p, `"480p"` finds
      480p and the absent `"1080p"` finds nothing. */
  lemma SelectionExamples()
    ensures var streams := [Stream("360p", 360), Stream("480p", 480), Stream("720p", 720)];
      && SelectStream(streams, "highest") == Some(Stream("720p", 720))
      && SelectStream(streams, "lowest") == Some(Stream("360p", 360))
      && SelectStream(streams, "480p") == Some(Stream("480p", 480))
      && SelectStream(streams, "1080p") == None
  {
    var streams := [Stream("360p", 360), Stream("480p", 480), Stream("720p", 720)];
    assert streams[..2][..1] == [Stream("360p", 360)];
    assert streams[..2] == [Stream("360p", 360), Stream("480p", 480)];
  }
}

=== FILE: text.dfy ===
/** Python's whitespace handling on `str` (`isspace`, `strip`, `lstrip`, `rstrip`), and the
    first-occurrence search that reading a duration back uses. */
module Text {
  import opened Outcomes

  /** The characters `str.isspace` accepts, which are the ones `strip()` removes. */
  predicate IsWhitespace(c: char)
  {
    || c == ' ' || c == '\t' || c == '\n' || c == '\r'
    || c == '\U{000B}' || c == '\U{000C}'
    || ('\U{001C}' <= c <= '\U{001F}')
    || c == '\U{0085}' || c == '\U{00A0}' || c == '\U{1680}'
    || ('\U{2000}' <= c <= '\U{200A}')
    || c == '\U{2028}' || c == '\U{2029}' || c == '\U{202F}' || c == '\U{205F}' || c == '\U{3000}'
  }

  predicate AllWhitespace(s: string)
  {
    forall i :: 0 <= i < |s| ==> IsWhitespace(s[i])
  }

  /** How many whitespace characters `s` ends with. */
  function TrailingWhitespace(s: string): (k: nat)
    ensures k <= |s|
    ensures forall i :: |s| - k <= i < |s| ==> IsWhitespace(s[i])
    ensures k == |s| || !IsWhitespace(s[|s| - k - 1])
  {
    if s == [] || !IsWhitespace(s[|s| - 1]) then 0
    else 1 + TrailingWhitespace(s[..|s| - 1])
  }

  /** How many whitespace characters `s` starts with. */
  function LeadingWhitespace(s: string): (k: nat)
    ensures k <= |s|
    ensures forall i :: 0 <= i < k ==> IsWhitespace(s[i])
    ensures k == |s| || !IsWhitespace(s[k])
  {
    if s == [] || !IsWhitespace(s[0]) then 0
    else 1 + LeadingWhitespace(s[1..])
  }

  /** `s.rstrip()`: the longest prefix of `s` after which only whitespace follows. */
  function Rstrip(s: string): (r: string)
    ensures |r| <= |s| && r == s[..|r|]
    ensures AllWhitespace(s[|r|..])
    ensures r == [] || !IsWhitespace(r[|r| - 1])
  {
    s[..|s| - TrailingWhitespace(s)]
  }

  /** `s.lstrip()`: the longest suffix of `s` before which only whitespace comes. */
  function Lstrip(s: string): (r: string)
    ensures |r| <= |s| && r == s[|s| - |r|..]
    ensures AllWhitespace(s[..|s| - |r|])
    ensures r == [] || !IsWhitespace(r[0])
  {
    s[LeadingWhitespace(s)..]
  }

  /** `s.strip()`: whitespace removed from both ends. */
  function Strip(s: string): string
  {
    Rstrip(Lstrip(s))
  }

  /** `s.strip()` is empty exactly when `s` is empty or holds only whitespace. */
  /** `strip()` never lengthens its input, and what it leaves neither starts nor ends with
      whitespace. */
  lemma StripShape(s: string)
    ensures |Strip(s)| <= |s|
    ensures Strip(s) == [] || (!IsWhitespace(Strip(s)[0]) && !IsWhitespace(Strip(s)[|Strip(s)| - 1]))
  {
  }

  lemma StripEmptyIffBlank(s: string)
    ensures Strip(s) == [] <==> AllWhitespace(s)
  {
    var l := Lstrip(s);
    if !AllWhitespace(s) {
      var i :| 0 <= i < |s| && !IsWhitespace(s[i]);
      assert l[i - (|s| - |l|)] == s[i];
    }
  }

  /** The first index holding `c`, or `None`; `Duration.ParseDuration` finds the space that ends
      the day count with it. */
  function IndexOf(s: string, c: char): (r: Option<nat>)
    ensures r.Some? ==> r.value < |s| && s[r.value] == c && forall k :: 0 <= k < r.value ==> s[k] != c
    ensures r.None? ==> forall k :: 0 <= k < |s| ==> s[k] != c
  {
    if s == [] then None
    else if s[0] == c then Some(0)
    else
      match IndexOf(s[1..], c)
      case None => None
      case Some(i) => Some(i + 1)
  }
}

=== FILE: url_normalizer.dfy ===
/** `sanitize_youtube_url`: finds a video id in one of four URL shapes and rebuilds the
    canonical watch URL from it.

    Each shape is the regular expression
      `(?:https?:\/\/)?(?:www\.|m\.)?<literal>([a-zA-Z0-9_-]{11})`
    searched for with `re.search`, so it may match anywhere in the text. `Search` models that
    search directly: start positions from left to right and, at each, the nine ways of filling
    the optional prefix in the order a backtracking matcher tries them. `SearchFindsLeftmostId`
    then shows the captured id is simply the 11 characters after the leftmost occurrence of the
    literal that is followed by 11 id characters. */
module UrlNormalizer {
  import opened Outcomes

  /** `[a-zA-Z0-9_-]`. */
  predicate IsIdChar(c: char)
  {
    ('a' <= c <= 'z') || ('A' <= c <= 'Z') || ('0' <= c <= '9') || c == '_' || c == '-'
  }

  const IdLength: nat := 11

  predicate IsVideoId(s: string)
  {
    |s| == IdLength && forall i :: 0 <= i < |s| ==> IsIdChar(s[i])
  }

  const ShortLink: string := "youtu.be/"
  const WatchLink: string := "youtube.com/watch?v="
  const EmbedLink: string := "youtube.com/embed/"
  const LegacyLink: string := "youtube.com/v/"

  /** The fixed literal of each accepted shape, in the order the shapes are tried. */
  const Shapes: seq<string> := [ShortLink, WatchLink, EmbedLink, LegacyLink]

  /** The ways of filling `(?:https?:\/\/)?(?:www\.|m\.)?`, in backtracking order: the optional
      groups are greedy and `s?` prefers the `s`. */
  const Prefixes: seq<string> :=
    [ SecureWww, "https://m.", "https://",
      "http://www.", "http://m.", "http://",
      "www.", "m.", "" ]

  const SecureWww: string := "https://www."

  /** `https://www.youtube.com/watch?v=`. */
  const CanonicalPrefix: string := SecureWww + WatchLink

  function Canonical(id: string): (u: string)
  {
    CanonicalPrefix + id
  }

  /** The shape of every URL the normaliser returns. */
  predicate IsCanonical(u: string)
  {
    && |u| == |CanonicalPrefix| + IdLength
    && u[..|CanonicalPrefix|] == CanonicalPrefix
    && IsVideoId(u[|CanonicalPrefix|..])
  }

  /** The video id of a canonical URL. */
  function IdOf(u: string): string
    requires IsCanonical(u)
  {
    u[|CanonicalPrefix|..]
  }

  /** Building the canonical URL of an id and taking its id back are inverse. */
  lemma CanonicalIdRoundTrip(id: string)
    requires IsVideoId(id)
    ensures IsCanonical(Canonical(id)) && IdOf(Canonical(id)) == id
  {
    assert Canonical(id)[..|CanonicalPrefix|] == CanonicalPrefix;
    assert Canonical(id)[|CanonicalPrefix|..] == id;
  }

  lemma IdCanonicalRoundTrip(u: string)
    requires IsCanonical(u)
    ensures Canonical(IdOf(u)) == u
  {
    assert u == u[..|CanonicalPrefix|] + u[|CanonicalPrefix|..];
  }

  /** `lit` occurs at position `j` of `url` and is followed by eleven id characters. */
  predicate OccursAt(url: string, lit: string, j: nat)
  {
    && j + |lit| + IdLength <= |url|
    && url[j..j + |lit|] == lit
    && forall k :: j + |lit| <= k < j + |lit| + IdLength ==> IsIdChar(url[k])
  }

  /** The eleven characters after an occurrence: what `([a-zA-Z0-9_-]{11})` captures. */
  function IdAt(url: string, lit: string, j: nat): (id: string)
    requires OccursAt(url, lit, j)
    ensures IsVideoId(id)
  {
    url[j + |lit|..j + |lit| + IdLength]
  }

  /** A successful match: where it starts, how the optional prefix was filled, and group 1. */
  datatype Match = Match(start: nat, prefix: string, group: string)

  /** One start position of the search: the prefixes `ps` tried in order at position `i`. */
  function MatchAt(url: string, lit: string, i: nat, ps: seq<string>): (m: Option<Match>)
    ensures m.Some? ==>
      && m.value.start == i && m.value.prefix in ps
      && OccursAt(url, m.value.prefix + lit, i)
      && m.value.group == IdAt(url, m.value.prefix + lit, i)
    ensures m.None? ==> forall p :: p in ps ==> !OccursAt(url, p + lit, i)
  {
    if ps == [] then None
    else if OccursAt(url, ps[0] + lit, i) then Some(Match(i, ps[0], IdAt(url, ps[0] + lit, i)))
    else MatchAt(url, lit, i, ps[1..])
  }

  /** `re.search` of the shape with literal `lit`, from start position `i` on. */
  function Search(url: string, lit: string, i: nat): (m: Option<Match>)
    ensures m.Some? ==> i <= m.value.start && IsVideoId(m.value.group)
    decreases |url| + 1 - i
  {
    if i > |url| then None
    else
      match MatchAt(url, lit, i, Prefixes)
      case Some(found) => Some(found)
      case None => Search(url, lit, i + 1)
  }

  /** The leftmost position from `i` on where `lit` occurs followed by eleven id characters. */
  function FirstOccurrence(url: string, lit: string, i: nat): (j: Option<nat>)
    ensures j.Some? ==>
      && i <= j.value && OccursAt(url, lit, j.value)
      && forall k :: i <= k < j.value ==> !OccursAt(url, lit, k)
    ensures j.None? ==> forall k :: i <= k ==> !OccursAt(url, lit, k)
    decreases |url| + 1 - i
  {
    if i > |url| then None
    else if OccursAt(url, lit, i) then Some(i)
    else FirstOccurrence(url, lit, i + 1)
  }

  /** The id after the leftmost occurrence of `lit` from position `i` on, if there is one. */
  function LeftmostId(url: string, lit: string, i: nat): Option<string>
  {
    match FirstOccurrence(url, lit, i)
    case Some(j) => Some(IdAt(url, lit, j))
    case None => None
  }

  /** Group 1 of a search result. */
  function GroupOf(m: Option<Match>): Option<string>
  {
    match m
    case Some(found) => Some(found.group)
    case None => None
  }

  /** `sanitize_youtube_url` over the shapes still to try: the first shape whose search
      succeeds with an eleven-character group gives the canonical URL. */
  function NormalizeWith(url: string, shapes: seq<string>): (r: Result<string>)
    ensures r.Ok? ==> IsCanonical(r.value)
    ensures r.Err? ==> r.error == InvalidUrlFormat
  {
    if shapes == [] then Err(InvalidUrlFormat)
    else
      var later := NormalizeWith(url, shapes[1..]);
      match Search(url, shapes[0], 0)
      case Some(m) =>
        if |m.group| == IdLength then
          CanonicalIdRoundTrip(m.group);
          Ok(Canonical(m.group))
        else later
      case None => later
  }

  /** `sanitize_youtube_url(url)`: a canonical watch URL, or the invalid-format error. */
  function Normalize(url: string): (r: Result<string>)
    ensures r.Ok? ==> IsCanonical(r.value)
    ensures r.Err? ==> r.error == InvalidUrlFormat
  {
    NormalizeWith(url, Shapes)
  }

  /** The leftmost-literal reading of the normaliser: the canonical URL of the id after the leftmost
      occurrence of the first shape, in list order, that occurs at all. */
  function LeftmostShapeUrl(url: string, shapes: seq<string>): Result<string>
  {
    if shapes == [] then Err(InvalidUrlFormat)
    else
      match LeftmostId(url, shapes[0], 0)
      case Some(id) => Ok(Canonical(id))
      case None => LeftmostShapeUrl(url, shapes[1..])
  }

  /** `p` holds no `y`, the first letter of every shape's literal. */
  predicate HasNoY(p: string)
  {
    forall k :: 0 <= k < |p| ==> p[k] != 'y'
  }

  /** No optional prefix contains a `y`. */
  lemma PrefixesHaveNoY()
    ensures forall p :: p in Prefixes ==> HasNoY(p)
  {
  }

  /** Where a prefixed literal occurs, the bare literal occurs right after the prefix and is
      followed by the same id. */
  lemma PrefixedOccurrence(url: string, p: string, lit: string, i: nat)
    requires OccursAt(url, p + lit, i)
    ensures url[i..i + |p|] == p
    ensures OccursAt(url, lit, i + |p|)
    ensures IdAt(url, lit, i + |p|) == IdAt(url, p + lit, i)
  {
    var w := url[i..i + |p| + |lit|];
    assert w == p + lit;
    assert url[i..i + |p|] == w[..|p|];
    assert url[i + |p|..i + |p| + |lit|] == w[|p|..];
  }

  /** A match that fills the prefix with `p` finds the leftmost occurrence of the literal. */
  lemma PrefixedMatchIsLeftmost(url: string, lit: string, i: nat, p: string)
    requires |lit| > 0 && lit[0] == 'y'
    requires HasNoY(p) && OccursAt(url, p + lit, i)
    ensures FirstOccurrence(url, lit, i) == Some(i + |p|)
    ensures LeftmostId(url, lit, i) == Some(IdAt(url, p + lit, i))
  {
    PrefixedOccurrence(url, p, lit, i);
    forall k | i <= k < i + |p|
      ensures !OccursAt(url, lit, k)
    {
      assert url[k] == url[i..i + |p|][k - i];
    }
  }

  /** The regular-expression search and the leftmost-literal reading capture the same id: a
      match may begin earlier than the literal only by a prefix, and a prefix never holds the
      `y` that every literal starts with. */
  lemma {:induction false} SearchFindsLeftmostId(url: string, lit: string, i: nat)
    requires |lit| > 0 && lit[0] == 'y'
    ensures GroupOf(Search(url, lit, i)) == LeftmostId(url, lit, i)
    decreases |url| + 1 - i
  {
    if i <= |url| {
      if MatchAt(url, lit, i, Prefixes).Some? {
        MatchHere(url, lit, i);
      } else {
        NoMatchHere(url, lit, i);
        SearchFindsLeftmostId(url, lit, i + 1);
      }
    }
  }

  /** A match at `i` captures the id after the leftmost occurrence from `i` on. */
  lemma MatchHere(url: string, lit: string, i: nat)
    requires |lit| > 0 && lit[0] == 'y' && i <= |url|
    requires MatchAt(url, lit, i, Prefixes).Some?
    ensures GroupOf(Search(url, lit, i)) == LeftmostId(url, lit, i)
  {
    var m := MatchAt(url, lit, i, Prefixes).value;
    assert Search(url, lit, i) == Some(m);
    PrefixesHaveNoY();
    PrefixedMatchIsLeftmost(url, lit, i, m.prefix);
  }

  /** No match at `i`, not even with the empty prefix: both readings move on to `i + 1`. */
  lemma NoMatchHere(url: string, lit: string, i: nat)
    requires i <= |url| && MatchAt(url, lit, i, Prefixes).None?
    ensures Search(url, lit, i) == Search(url, lit, i + 1)
    ensures LeftmostId(url, lit, i) == LeftmostId(url, lit, i + 1)
  {
    assert "" in Prefixes && "" + lit == lit;
    assert FirstOccurrence(url, lit, i) == FirstOccurrence(url, lit, i + 1);
  }

  /** Over literals that start with `y`, the normaliser is the leftmost-shape reading. */
  lemma {:induction false} NormalizeWithIsLeftmost(url: string, shapes: seq<string>)
    requires forall s :: s in shapes ==> |s| > 0 && s[0] == 'y'
    ensures NormalizeWith(url, shapes) == LeftmostShapeUrl(url, shapes)
    decreases |shapes|
  {
    if shapes != [] {
      SearchFindsLeftmostId(url, shapes[0], 0);
      NormalizeWithIsLeftmost(url, shapes[1..]);
    }
  }

  lemma NormalizeIsLeftmost(url: string)
    ensures Normalize(url) == LeftmostShapeUrl(url, Shapes)
  {
    NormalizeWithIsLeftmost(url, Shapes);
  }

  /** The leftmost-shape reading fails exactly when no shape occurs anywhere. */
  lemma {:induction false} LeftmostShapeFails(url: string, shapes: seq<string>)
    ensures LeftmostShapeUrl(url, shapes).Err? <==>
            forall k, j :: 0 <= k < |shapes| ==> !OccursAt(url, shapes[k], j)
    decreases |shapes|
  {
    if shapes != [] {
      LeftmostShapeFails(url, shapes[1..]);
      if LeftmostId(url, shapes[0], 0).None? {
        forall k, j | 0 <= k < |shapes| && LeftmostShapeUrl(url, shapes).Err?
          ensures !OccursAt(url, shapes[k], j)
        {
          if k > 0 {
            assert shapes[k] == shapes[1..][k - 1];
          }
        }
      }
    }
  }

  /** The normaliser rejects exactly the inputs in which no shape's literal is followed by
      eleven id characters. */
  lemma RejectsExactlyWhenNoShapeOccurs(url: string)
    ensures Normalize(url).Err? <==> forall k, j :: 0 <= k < |Shapes| ==> !OccursAt(url, Shapes[k], j)
  {
    NormalizeIsLeftmost(url);
    LeftmostShapeFails(url, Shapes);
  }

  /** A shape that occurs wins over every later shape, wherever those occur: its leftmost id
      is the one returned. */
  lemma FirstShapeWins(url: string, k: nat, j: nat)
    requires k < |Shapes| && OccursAt(url, Shapes[k], j)
    requires forall e, i :: 0 <= e < k ==> !OccursAt(url, Shapes[e], i)
    ensures LeftmostId(url, Shapes[k], 0).Some?
    ensures Normalize(url) == Ok(Canonical(LeftmostId(url, Shapes[k], 0).value))
  {
    NormalizeIsLeftmost(url);
    var rest := Shapes;
    var e := 0;
    while e < k
      invariant 0 <= e <= k && rest == Shapes[e..]
      invariant LeftmostShapeUrl(url, Shapes) == LeftmostShapeUrl(url, rest)
    {
      assert rest[0] == Shapes[e];
      assert FirstOccurrence(url, rest[0], 0).None?;
      rest := rest[1..];
      e := e + 1;
    }
  }

  /** An input holding a short link yields the short link's id even when it also holds a
      watch link, before or after it. */
  lemma ShortLinkWins(url: string, j: nat)
    requires OccursAt(url, ShortLink, j)
    ensures LeftmostId(url, ShortLink, 0).Some?
    ensures Normalize(url) == Ok(Canonical(LeftmostId(url, ShortLink, 0).value))
  {
    FirstShapeWins(url, 0, j);
  }

  /** An id run longer than eleven characters is accepted and cut to its first eleven. */
  lemma LongIdTruncated(t: string)
    requires |t| >= IdLength && forall i :: 0 <= i < |t| ==> IsIdChar(t[i])
    ensures Normalize(ShortLink + t) == Ok(Canonical(t[..IdLength]))
  {
    var url := ShortLink + t;
    assert url[..|ShortLink|] == ShortLink;
    assert OccursAt(url, ShortLink, 0);
    ShortLinkWins(url, 0);
    assert FirstOccurrence(url, ShortLink, 0) == Some(0);
    assert url[|ShortLink|..|ShortLink| + IdLength] == t[..IdLength];
  }

  /** When `c` holds its only `y` at `y` and `lit` starts with `y` and holds a character
      outside the id class, `lit` can occur in `c + id` only at `y`. */
  lemma OnlyCandidate(c: string, id: string, lit: string, y: nat, d: nat)
    requires IsVideoId(id) && 0 < |lit| && lit[0] == 'y'
    requires d < |lit| && !IsIdChar(lit[d])
    requires y < |c| && forall i :: 0 <= i < |c| && c[i] == 'y' ==> i == y
    ensures forall j :: OccursAt(c + id, lit, j) ==> j == y
  {
    var s := c + id;
    forall j: nat | OccursAt(s, lit, j)
      ensures j == y
    {
      assert s[j + d] == s[j..j + |lit|][d];
      assert s[j] == s[j..j + |lit|][0];
    }
  }

  /** The canonical URL holds no short link, and its watch link carries its own id. */
  lemma CanonicalShape(id: string)
    requires IsVideoId(id)
    ensures forall j :: !OccursAt(Canonical(id), ShortLink, j)
    ensures LeftmostId(Canonical(id), WatchLink, 0) == Some(id)
  {
    var p := SecureWww;
    assert WatchLink == Shapes[1];
    OneYAfterPrefix(p, 1);
    CanonicalHasNoShortLink(id);
    LiteralThenId(p, WatchLink, id);
    SeparatorOutsideIdClass(1);
    OnlyCandidate(CanonicalPrefix, id, WatchLink, |p|, Separator(1));
    OnlyOccurrence(Canonical(id), WatchLink, |p|);
  }

  lemma CanonicalHasNoShortLink(id: string)
    requires IsVideoId(id)
    ensures forall j :: !OccursAt(Canonical(id), ShortLink, j)
  {
    var p := SecureWww;
    var u := Canonical(id);
    assert WatchLink == Shapes[1];
    OneYAfterPrefix(p, 1);
    SeparatorOutsideIdClass(0);
    OnlyCandidate(CanonicalPrefix, id, ShortLink, |p|, Separator(0));
    assert u[|p|..|p| + |ShortLink|][5] == u[|p| + 5] == WatchLink[5] == 'b';
  }

  /** The normaliser returns a canonical URL unchanged. */
  lemma CanonicalIsFixedPoint(id: string)
    requires IsVideoId(id)
    ensures Normalize(Canonical(id)) == Ok(Canonical(id))
  {
    CanonicalShape(id);
    NormalizeIsLeftmost(Canonical(id));
    assert LeftmostId(Canonical(id), ShortLink, 0).None?;
  }

  /** Normalising twice is normalising once. */
  lemma NormalizeIdempotent(url: string)
    ensures Normalize(url).Ok? ==> Normalize(Normalize(url).value) == Normalize(url)
  {
    if Normalize(url).Ok? {
      var u := Normalize(url).value;
      IdCanonicalRoundTrip(u);
      CanonicalIsFixedPoint(IdOf(u));
    }
  }

  /** Each literal holds its `y` only in front. */
  lemma ShapesHaveOneY()
    ensures forall k, i :: 0 <= k < |Shapes| && 0 < i < |Shapes[k]| ==> Shapes[k][i] != 'y'
  {
  }

  /** The position in literal `Shapes[e]` where it disagrees with every later literal, and a
      position where it holds a character outside the id class. */
  function Mismatch(e: nat): nat
  {
    if e == 0 then 5 else 12
  }

  function Separator(e: nat): nat
  {
    if e == 0 then 5 else 7
  }

  /** Each literal disagrees with every later one at `Mismatch`. */
  lemma LiteralsDisagree(e: nat, k: nat)
    requires e < k < |Shapes|
    ensures Mismatch(e) < |Shapes[e]| && Mismatch(e) < |Shapes[k]|
    ensures Shapes[e][Mismatch(e)] != Shapes[k][Mismatch(e)]
  {
  }

  /** Each literal holds a character outside the id class at `Separator`. */
  lemma SeparatorOutsideIdClass(e: nat)
    requires e < |Shapes|
    ensures Separator(e) < |Shapes[e]| && !IsIdChar(Shapes[e][Separator(e)])
  {
  }

  /** Behind a prefix, the only `y` of a literal is its first character. */
  lemma OneYAfterPrefix(p: string, k: nat)
    requires HasNoY(p) && k < |Shapes|
    ensures forall i :: 0 <= i < |p + Shapes[k]| && (p + Shapes[k])[i] == 'y' ==> i == |p|
  {
    var c := p + Shapes[k];
    ShapesHaveOneY();
    forall i | 0 <= i < |c| && c[i] == 'y'
      ensures i == |p|
    {
      if i >= |p| {
        assert c[i] == Shapes[k][i - |p|];
      }
    }
  }

  /** A prefix, the literal of shape `k` and an id hold no shape tried before `k`. */
  lemma EarlierShapeAbsent(p: string, k: nat, e: nat, id: string)
    requires HasNoY(p) && e < k < |Shapes| && IsVideoId(id)
    ensures forall j :: !OccursAt(p + Shapes[k] + id, Shapes[e], j)
  {
    var c := p + Shapes[k];
    var url := c + id;
    OneYAfterPrefix(p, k);
    LiteralsDisagree(e, k);
    SeparatorOutsideIdClass(e);
    OnlyCandidate(c, id, Shapes[e], |p|, Separator(e));
    var off := Mismatch(e);
    assert url[|p| + off] == Shapes[k][off];
    assert url[|p|..|p| + |Shapes[e]|][off] != Shapes[e][off];
  }

  /** A prefix, the literal of shape `k` and an id: the leftmost id of shape `k` is that id. */
  lemma ShapeOccursAfterPrefix(p: string, k: nat, id: string)
    requires HasNoY(p) && k < |Shapes| && IsVideoId(id)
    ensures OccursAt(p + Shapes[k] + id, Shapes[k], |p|)
    ensures LeftmostId(p + Shapes[k] + id, Shapes[k], 0) == Some(id)
  {
    var lit := Shapes[k];
    var c := p + lit;
    LiteralThenId(p, lit, id);
    OneYAfterPrefix(p, k);
    SeparatorOutsideIdClass(k);
    OnlyCandidate(c, id, lit, |p|, Separator(k));
    OnlyOccurrence(c + id, lit, |p|);
  }

  /** An occurrence that is the only one is the leftmost. */
  lemma OnlyOccurrence(url: string, lit: string, j: nat)
    requires OccursAt(url, lit, j) && forall i :: OccursAt(url, lit, i) ==> i == j
    ensures LeftmostId(url, lit, 0) == Some(IdAt(url, lit, j))
  {
    assert FirstOccurrence(url, lit, 0) == Some(j);
  }

  /** `p + lit + id` holds `lit` at `|p|`, followed by the id. */
  lemma LiteralThenId(p: string, lit: string, id: string)
    requires IsVideoId(id)
    ensures OccursAt(p + lit + id, lit, |p|) && IdAt(p + lit + id, lit, |p|) == id
  {
    var url := p + lit + id;
    assert url[|p|..|p| + |lit|] == lit;
    assert url[|p| + |lit|..|p| + |lit| + IdLength] == id;
    forall i | |p| + |lit| <= i < |p| + |lit| + IdLength
      ensures IsIdChar(url[i])
    {
      assert url[i] == id[i - |p| - |lit|];
    }
  }

  /** Every accepted shape, bare or behind any accepted prefix, normalises an id to the same
      canonical URL. */
  lemma AllShapesAgree(p: string, k: nat, id: string)
    requires p in Prefixes && k < |Shapes| && IsVideoId(id)
    ensures Normalize(p + Shapes[k] + id) == Ok(Canonical(id))
  {
    PrefixesHaveNoY();
    forall e | 0 <= e < k {
      EarlierShapeAbsent(p, k, e, id);
    }
    ShapeOccursAfterPrefix(p, k, id);
    FirstShapeWins(p + Shapes[k] + id, k, |p|);
  }
}

=== FILE: views.dfy ===
/** The two request handlers: `home` shows a video's details, `download_video` serves one of its
    streams as an attachment.

    The remote service is abstract: `remote` says which fetch attempts succeed and `video` is
    the metadata a successful fetch returns. Besides its response, each handler reports whether
    it reached the URL normaliser and how many fetch attempts it made, so that the guards in
    front of them can be stated. */
module Views {
  import opened Outcomes
  import opened Text
  import opened Decimal
  import opened UrlNormalizer
  import opened Duration
  import opened Retry
  import opened Streams
  import opened DownloadName

  /** The parts of a request the handlers read: whether it is a POST, and the submitted form
      fields, absent when not submitted. */
  datatype Request = Request(isPost: bool, url: Option<string>, quality: Option<string>)

  /** What the remote handle exposes after a successful fetch, `video_id` included. */
  datatype Video = Video(
    title: string, length: nat, views: nat, author: string, thumbnailUrl: string,
    streams: seq<Stream>, videoId: string)

  /** The context `home` renders on success. */
  datatype Details = Details(
    title: string, duration: string, views: string, author: string, thumbnail: string,
    streams: seq<Stream>, videoId: string, cleanUrl: string)

  /** What `home` renders: the empty form, the form asking for a URL, the form with the failure
      that stopped it and the message it shows, or the video's details. */
  datatype HomePage =
    | BlankForm
    | Prompt(message: string)
    | Failure(error: Error, message: string)
    | VideoPage(details: Details)

  /** What `download_video` answers. */
  datatype DownloadResponse =
    | RedirectHome
    | BadRequest(message: string)
    | FailurePage(error: Error, message: string, url: string)
    | Attachment(filename: string, contentType: string, disposition: string)

  const PromptMessage: string := "Please enter a YouTube URL"
  const NoUrlMessage: string := "No URL provided"

  /** What `home` shows for a failure its `except PytubeError` branch does not catch. */
  const HomeFallback: string := "Failed to fetch video information"

  /** What `download_video` shows for a failure its `except PytubeError` branch does not catch. */
  const DownloadFallback: string := "Download failed. Please try again later."

  /** `str(e)` of the exception behind each failure. */
  function Message(e: Error): string
  {
    match e
    case InvalidUrlFormat => "Invalid YouTube URL format"
    case CouldNotInitialize => "Could not initialize YouTube object. Check your network or try another video."
    case NoSuitableStream => "No suitable stream found"
    case FileNotFound => "Downloaded file not found"
    case DurationOverflow(days) => "days=" + NatToString(days) + "; must have magnitude <= 999999999"
  }

  /** Whether the `except PytubeError` branch catches the failure. The could-not-initialize and
      no-stream failures are raised as `PytubeError`s; a missing file is a `FileNotFoundError`
      and a duration overflow an `OverflowError`, neither of them one. Whether the URL failure
      is one depends on the exception class pytube provides: `urlErrorConstructs` says whether
      `RegexMatchError` accepts the single message it is given, so that it is raised as written;
      otherwise its construction raises a `TypeError`, which only `except Exception` catches. */
  predicate CaughtAsPytubeError(e: Error, urlErrorConstructs: bool)
  {
    match e
    case InvalidUrlFormat => urlErrorConstructs
    case CouldNotInitialize => true
    case NoSuitableStream => true
    case FileNotFound => false
    case DurationOverflow(_) => false
  }

  /** The message `home` puts in its context for a failure. A `RegexMatchError` that is raised as
      written shows its own text whichever of the branches for it runs. */
  function HomeErrorText(e: Error, urlErrorConstructs: bool): string
  {
    if CaughtAsPytubeError(e, urlErrorConstructs) then Message(e) else HomeFallback
  }

  /** The message `download_video` renders for a failure. */
  function DownloadErrorText(e: Error, urlErrorConstructs: bool): string
  {
    if CaughtAsPytubeError(e, urlErrorConstructs) then Message(e) else DownloadFallback
  }

  /** `request.POST.get(name, default)`. */
  function FormField(field: Option<string>, default: string): string
  {
    match field
    case Some(v) => v
    case None => default
  }

  /** The submitted URL as both handlers read it: the `url` field, empty when absent, stripped. */
  function SubmittedUrl(req: Request): string
  {
    Strip(FormField(req.url, ""))
  }

  /** The submitted URL is missing, empty, or whitespace only. */
  predicate BlankUrl(req: Request)
  {
    AllWhitespace(FormField(req.url, ""))
  }

  /** Every attempt the default retry bound allows fails. */
  predicate FetchFails(remote: nat -> bool)
  {
    forall k :: 0 <= k < DefaultMaxRetries ==> !remote(k)
  }

  /** The request gets past the empty-URL guard and its URL normalises. */
  predicate Normalizes(req: Request)
  {
    req.isPost && !BlankUrl(req) && Normalize(SubmittedUrl(req)).Ok?
  }

  /** `home(request)`. `urlErrorConstructs` is as in `CaughtAsPytubeError`. */
  method Home(req: Request, remote: nat -> bool, video: Video, urlErrorConstructs: bool)
    returns (page: HomePage, normalized: bool, attempts: nat)
    ensures !req.isPost ==> page == BlankForm && !normalized && attempts == 0
    ensures req.isPost && BlankUrl(req) ==> page == Prompt(PromptMessage) && !normalized && attempts == 0
    ensures page.Failure? ==> page.message == HomeErrorText(page.error, urlErrorConstructs)
    ensures page.Failure? && page.error == InvalidUrlFormat <==>
      req.isPost && !BlankUrl(req) && Normalize(SubmittedUrl(req)).Err?
    ensures page.Failure? && page.error == InvalidUrlFormat ==> normalized && attempts == 0
    ensures page.Failure? && page.error == CouldNotInitialize <==> Normalizes(req) && FetchFails(remote)
    ensures page.Failure? && page.error.DurationOverflow? <==>
      Normalizes(req) && !FetchFails(remote) && DurationText(video.length).Err?
    ensures page.Failure? ==>
      page.error == InvalidUrlFormat || page.error == CouldNotInitialize || page.error.DurationOverflow?
    ensures page.VideoPage? <==>
      Normalizes(req) && !FetchFails(remote) && DurationText(video.length).Ok?
    ensures page.VideoPage? ==>
      && page.details.cleanUrl == Normalize(SubmittedUrl(req)).value
      && page.details.videoId == video.videoId
      && page.details.duration == FormatDuration(video.length)
      && page.details.views == Grouped(video.views)
      && page.details.title == video.title && page.details.author == video.author
      && page.details.thumbnail == video.thumbnailUrl && page.details.streams == video.streams
    ensures attempts <= DefaultMaxRetries
    ensures attempts > 0 ==> normalized
  {
    if !req.isPost {
      return BlankForm, false, 0;
    }
    var url := SubmittedUrl(req);
    StripEmptyIffBlank(FormField(req.url, ""));
    if url == [] {
      return Prompt(PromptMessage), false, 0;
    }
    normalized := true;
    var clean := Normalize(url);
    if clean.Err? {
      return Failure(clean.error, HomeErrorText(clean.error, urlErrorConstructs)), normalized, 0;
    }
    var fetched, sleeps;
    fetched, attempts, sleeps := FetchWithRetry(remote, DefaultMaxRetries);
    if fetched.Err? {
      return Failure(fetched.error, HomeErrorText(fetched.error, urlErrorConstructs)), normalized, attempts;
    }
    var duration := DurationText(video.length);
    if duration.Err? {
      return Failure(duration.error, HomeErrorText(duration.error, urlErrorConstructs)), normalized, attempts;
    }
    var details := Details(
      video.title, duration.value, Grouped(video.views), video.author,
      video.thumbnailUrl, video.streams, video.videoId, clean.value);
    page := VideoPage(details);
  }

  /** `download_video(request)`; `saved` says whether the downloaded file is on disk afterwards,
      and `urlErrorConstructs` is as in `CaughtAsPytubeError`. */
  method DownloadVideo(
    req: Request, remote: nat -> bool, video: Video, alnum: char -> bool, saved: bool,
    urlErrorConstructs: bool)
    returns (resp: DownloadResponse, normalized: bool, attempts: nat)
    ensures !req.isPost ==> resp == RedirectHome && !normalized && attempts == 0
    ensures req.isPost && BlankUrl(req) ==> resp == BadRequest(NoUrlMessage) && !normalized && attempts == 0
    ensures resp.FailurePage? ==>
      && req.isPost && !BlankUrl(req) && resp.url == SubmittedUrl(req)
      && resp.message == DownloadErrorText(resp.error, urlErrorConstructs)
    ensures resp.FailurePage? && resp.error == InvalidUrlFormat <==>
      req.isPost && !BlankUrl(req) && Normalize(SubmittedUrl(req)).Err?
    ensures resp.FailurePage? && resp.error == CouldNotInitialize <==> Normalizes(req) && FetchFails(remote)
    ensures resp.FailurePage? && resp.error == NoSuitableStream <==>
      && Normalizes(req) && !FetchFails(remote)
      && SelectStream(video.streams, FormField(req.quality, "highest")).None?
    ensures resp.FailurePage? && resp.error == FileNotFound <==>
      && Normalizes(req) && !FetchFails(remote)
      && SelectStream(video.streams, FormField(req.quality, "highest")).Some? && !saved
    ensures resp.FailurePage? ==> !resp.error.DurationOverflow?
    ensures resp.Attachment? <==>
      && Normalizes(req) && !FetchFails(remote)
      && SelectStream(video.streams, FormField(req.quality, "highest")).Some? && saved
    ensures resp.Attachment? ==>
      && resp.filename == Filename(alnum, video.title, video.videoId)
      && resp.contentType == "video/mp4"
      && resp.disposition == "attachment; filename=\"" + resp.filename + "\""
    ensures attempts <= DefaultMaxRetries
    ensures attempts > 0 ==> normalized
  {
    if !req.isPost {
      return RedirectHome, false, 0;
    }
    var url := SubmittedUrl(req);
    var quality := FormField(req.quality, "highest");
    StripEmptyIffBlank(FormField(req.url, ""));
    if url == [] {
      return BadRequest(NoUrlMessage), false, 0;
    }
    normalized := true;
    var clean := Normalize(url);
    if clean.Err? {
      return FailurePage(clean.error, DownloadErrorText(clean.error, urlErrorConstructs), url), normalized, 0;
    }
    var fetched, sleeps;
    fetched, attempts, sleeps := FetchWithRetry(remote, DefaultMaxRetries);
    if fetched.Err? {
      return FailurePage(fetched.error, DownloadErrorText(fetched.error, urlErrorConstructs), url), normalized, attempts;
    }
    var stream := SelectStream(video.streams, quality);
    if stream.None? {
      return FailurePage(NoSuitableStream, DownloadErrorText(NoSuitableStream, urlErrorConstructs), url), normalized, attempts;
    }
    var filename := Filename(alnum, video.title, video.videoId);
    if !saved {
      return FailurePage(FileNotFound, DownloadErrorText(FileNotFound, urlErrorConstructs), url), normalized, attempts;
    }
    resp := Attachment(filename, "video/mp4", "attachment; filename=\"" + filename + "\"");
  }

  /** The message each failure shows in `home`: the URL failure shows its own text or the
      fallback, according to `RegexMatchError`'s constructor; the fetch failure shows its text;
      a duration overflow shows the fallback. */
  lemma HomeMessages()
    ensures HomeErrorText(InvalidUrlFormat, true) == "Invalid YouTube URL format"
    ensures HomeErrorText(InvalidUrlFormat, false) == "Failed to fetch video information"
    ensures forall c: bool ::
      HomeErrorText(CouldNotInitialize, c) == "Could not initialize YouTube object. Check your network or try another video."
    ensures forall c: bool, d: nat :: HomeErrorText(DurationOverflow(d), c) == "Failed to fetch video information"
  {
  }

  /** The message each failure shows in `download_video`: a missing stream shows its text, and a
      missing file, like a URL failure whose exception cannot be constructed, the fallback. */
  lemma DownloadMessages()
    ensures DownloadErrorText(InvalidUrlFormat, false) == "Download failed. Please try again later."
    ensures forall c: bool :: DownloadErrorText(NoSuitableStream, c) == "No suitable stream found"
    ensures forall c: bool :: DownloadErrorText(FileNotFound, c) == "Download failed. Please try again later."
  {
  }
}
